=== FILE: README.md ===
# Customer issue resolution: a Dafny model of the assignment and waitlist protocol

This project models the in-memory core of a customer issue tracker written in
TypeScript. Customers raise issues against transactions. Support agents have
expertise types. A coordinator (`CustomerIssueResolutionSystem`) assigns each
issue to the first free agent with matching expertise. When all such agents
are busy, it queues the issue on the first matching agent. Resolving an issue
frees the agent and promotes the head of its waitlist. The two standalone keyed
stores (`IssueManager`, `AgentManager`) are modelled too.

Every operation is a pure function. It maps a state to a new state plus a
`Report`, which stands for the message the source prints. The state holds two
sequences. Entries are never deleted and ids come from a counter, so the
JavaScript `Map` insertion order is id order. Position k of a table holds id
`I(k+1)` (issues) or `A(k+1)` (agents). The subset types `IssueTable` and
`AgentTable` enforce this. "First matching agent" therefore means the lowest
position.

Modules, one per source file or concern:

- `Optional`: `Option`, for `T | undefined` and optional properties.
- `Sequences`: `FirstIndex` (what `filter(p)[0]` picks), `IsSubsequence` and `IsPrefix`.
- `Domain` (src/types.ts): the enums, ids, the `Issue`/`Agent`/`IssueFilter` records, and the keyed tables.
- `IssueStore` (src/IssueManager.ts) and `AgentStore` (src/AgentManager.ts): create, get, partial update, list.
- `ResolutionSystem` (src/CustomerIssueResolutionSystem.ts): the coordinator's operations.
- `ResolutionInvariants`: cross-entity invariants kept by every call and every run of calls.
- `ResolutionScenarios`: the demo in src/index.ts replayed, plus concrete runs of the as-written edge paths.

Where the intended life cycle and the code disagree, the model follows the code:

- `resolveIssue` does not check the issue's status. Resolving an issue a second time frees its agent even when that agent has since been promoted to another issue (`ResolvingTwiceFreesBusyAgent`).
- The resolved record is written back before the waitlist head is looked up. If the head is the issue being resolved, that issue goes back to in progress and keeps its resolution text.
- `updateIssue` can put an unassigned issue in progress (`DemoUpdateAndResolve`). So "open exactly while unassigned" is proved only for runs without manual updates (`ProtocolRunKeepsOpenIffUnassigned`).
- Assigning a still-waiting issue again queues it a second time (`RepeatedAssignQueuesTwice`).

## Model

| member | source | states |
|---|---|---|
| Sequences.FirstIndex | src/CustomerIssueResolutionSystem.ts:73-78 | the chosen position satisfies the predicate and no earlier one does; none is chosen exactly when no element satisfies it |
| Domain.IssueSlot | src/CustomerIssueResolutionSystem.ts:59 | the lookup finds the entry whose key equals the id, and finds nothing exactly when no entry has that id |
| Domain.AgentSlot | src/CustomerIssueResolutionSystem.ts:168 | the same lookup for agents |
| IssueStore.CreateIssue | src/IssueManager.ts:7-31 | returns `I(n+1)`, which was not stored before; the new issue is open, unassigned, unresolved and carries the given fields; earlier entries are unchanged |
| IssueStore.GetIssue | src/IssueManager.ts:33-35 | a stored issue with that id for a known id, nothing exactly when no stored issue has the id |
| IssueStore.UpdateIssue | src/IssueManager.ts:37-48 | false and no change for an unknown id; otherwise true, that issue becomes the merge of the patch, and all other issues and the store size are unchanged |
| IssueStore.GetAllIssues | src/IssueManager.ts:50-52 | one entry per created issue, in creation order, each the issue `getIssue` returns for its id |
| IssueStore.MergeOverwritesSuppliedFields | src/IssueManager.ts:45 | each supplied field takes the patch value, each absent one keeps the stored value, and the id never changes |
| IssueStore.UpdateIdempotent | src/IssueManager.ts:37-48 | applying the same update twice has the effect of applying it once |
| IssueStore.UpdateWithNoChanges | src/IssueManager.ts:45 | an empty patch leaves the store unchanged |
| IssueStore.CreateKeepsEarlierIssues | src/IssueManager.ts:14-30 | creating an issue changes no earlier lookup, and the listing grows only at its end |
| IssueStore.CreatedIdsDistinct | src/IssueManager.ts:14 | two successive creations return different ids, and the second leaves the first issue unchanged |
| AgentStore.AddAgent | src/AgentManager.ts:7-26 | returns `A(n+1)`, which was not stored before; the new agent has the given email, name and expertise, no current issue, and an empty waitlist and history |
| AgentStore.GetAgent | src/AgentManager.ts:28-30 | a stored agent with that id for a known id, nothing exactly when no stored agent has the id |
| AgentStore.UpdateAgent | src/AgentManager.ts:32-43 | false and no change for an unknown id; otherwise true, that agent becomes the merge of the patch, and all others are unchanged |
| AgentStore.GetAllAgents | src/AgentManager.ts:45-47 | one entry per added agent, in insertion order, each the agent `getAgent` returns for its id |
| AgentStore.MergeReplacesSuppliedFields | src/AgentManager.ts:40 | supplied fields, sequences included, are replaced wholesale rather than appended to; absent fields and the id are kept |
| AgentStore.UpdateIdempotent | src/AgentManager.ts:32-43 | applying the same update twice has the effect of applying it once |
| AgentStore.UpdateWithNoChanges | src/AgentManager.ts:40 | an empty patch leaves the store unchanged |
| AgentStore.AddKeepsEarlierAgents | src/AgentManager.ts:12-25 | adding an agent changes no earlier lookup, and the listing grows only at its end |
| AgentStore.AddedIdsDistinct | src/AgentManager.ts:12 | two successive registrations return different ids, and the second leaves the first agent unchanged |
| ResolutionSystem.CreateIssue | src/CustomerIssueResolutionSystem.ts:9-35 | returns the fresh id `I(n+1)`; the new issue is open, unassigned and unresolved with the given fields; agents and earlier issues are unchanged |
| ResolutionSystem.AddAgent | src/CustomerIssueResolutionSystem.ts:37-56 | returns the fresh id `A(n+1)`; the new agent is idle with an empty waitlist and history; issues and earlier agents are unchanged |
| ResolutionSystem.AssignIssue | src/CustomerIssueResolutionSystem.ts:58-104 | no change for an unknown issue, an assigned issue, or a type without experts. With a free expert, the lowest-position one takes the issue: current issue set, issue appended to its history, issue in progress and assigned to it, nothing else changes. With only busy experts, the issue is appended to the first expert's waitlist and nothing else changes |
| ResolutionSystem.AssignIsHandOverOrEnqueue | src/CustomerIssueResolutionSystem.ts:78-103 | an assignment is exactly one hand-over, one enqueue, or no change |
| ResolutionSystem.SelectMatching | src/CustomerIssueResolutionSystem.ts:109-131 | the loop's result is an order-preserving selection of the input holding exactly the issues that match every present filter field |
| ResolutionSystem.GetIssues | src/CustomerIssueResolutionSystem.ts:106-134 | the result holds exactly the stored issues that match every present filter field, in table order |
| ResolutionSystem.SelectMatchingStep | src/CustomerIssueResolutionSystem.ts:109-131 | one pass of the loop keeps the visited issue exactly when it matches, after the earlier selections |
| ResolutionSystem.SelectMatchingThree | src/CustomerIssueResolutionSystem.ts:109-131 | on a three-issue table the result lists the matching issues among the three, in table order |
| ResolutionSystem.WildcardSelectsAll | src/CustomerIssueResolutionSystem.ts:109-130 | with no effective criterion, the selection loop keeps every issue |
| ResolutionSystem.GetIssuesWildcard | src/CustomerIssueResolutionSystem.ts:106-134 | a filter whose fields are absent or an empty email returns the whole table |
| ResolutionSystem.UpdateIssue | src/CustomerIssueResolutionSystem.ts:136-152 | unknown id: no change. Otherwise only that issue's status changes, plus its resolution when a non-empty one is given; assignee, details, other issues and all agents are unchanged |
| ResolutionSystem.ResolveIssue | src/CustomerIssueResolutionSystem.ts:155-202 | no change for an unknown issue, an unassigned issue or an unknown assignee. Otherwise the issue gets the resolution and is resolved, and its agent is freed. A non-empty waitlist loses exactly its head. If the head is a stored issue, it alone is promoted to this agent: it becomes the agent's current issue and the end of its history. All other agents and issues are unchanged |
| ResolutionSystem.ResolveIsReleaseThenPromotion | src/CustomerIssueResolutionSystem.ts:175-198 | a successful resolve is the release step followed by at most one hand-over, of the former waitlist head |
| ResolutionSystem.WorkHistory | src/CustomerIssueResolutionSystem.ts:204-212 | the keys are exactly the stored agents' ids, each mapped to that agent's history |
| ResolutionSystem.HistoryOf | src/CustomerIssueResolutionSystem.ts:207-209 | after the loop has visited a table prefix, the record holds exactly the visited agents, each with its history |
| ResolutionInvariants.CreateIssueKeepsInvariant | src/CustomerIssueResolutionSystem.ts:9-35 | creating an issue keeps the cross-entity invariant and only extends the tables |
| ResolutionInvariants.AddAgentKeepsInvariant | src/CustomerIssueResolutionSystem.ts:37-56 | adding an agent keeps the invariant and only extends the tables |
| ResolutionInvariants.HandOverKeepsInvariant | src/CustomerIssueResolutionSystem.ts:80-84 | handing a stored issue to a stored agent keeps the invariant, whoever held the issue before |
| ResolutionInvariants.HandOverKeepsAssigneesRecorded | src/CustomerIssueResolutionSystem.ts:187-193 | after a hand-over, every assignee still has its issue in its history |
| ResolutionInvariants.HandOverExtendsHistory | src/CustomerIssueResolutionSystem.ts:80-84 | a hand-over appends exactly the handed issue to the taking agent's history and leaves every other agent unchanged |
| ResolutionInvariants.EnqueueKeepsInvariant | src/CustomerIssueResolutionSystem.ts:95-99 | queueing a stored issue on a stored agent keeps the invariant; tables only grow and every history keeps its earlier entries as a prefix |
| ResolutionInvariants.AssignKeepsInvariant | src/CustomerIssueResolutionSystem.ts:58-104 | assignment keeps the invariant, and no history loses an entry |
| ResolutionInvariants.AssignedKeepsInvariant | src/CustomerIssueResolutionSystem.ts:78-89 | the assigning branch keeps the invariant |
| ResolutionInvariants.WaitlistedKeepsInvariant | src/CustomerIssueResolutionSystem.ts:91-99 | the waitlisting branch keeps the invariant |
| ResolutionInvariants.ReleaseKeepsInvariant | src/CustomerIssueResolutionSystem.ts:175-184 | resolving, freeing the agent and popping its queue keep the invariant |
| ResolutionInvariants.ResolveKeepsInvariant | src/CustomerIssueResolutionSystem.ts:155-202 | resolution keeps the invariant, and no history loses an entry |
| ResolutionInvariants.PlainResolveKeepsInvariant | src/CustomerIssueResolutionSystem.ts:175-184 | a resolve that promotes nobody keeps the invariant |
| ResolutionInvariants.PromotingResolveKeepsInvariant | src/CustomerIssueResolutionSystem.ts:182-198 | a promoting resolve keeps the invariant |
| ResolutionInvariants.ReleaseThenHandOverKeepsInvariant | src/CustomerIssueResolutionSystem.ts:175-198 | releasing an issue and then handing the waitlist head to the same agent keeps the invariant |
| ResolutionInvariants.UpdateKeepsInvariant | src/CustomerIssueResolutionSystem.ts:136-152 | a manual status update keeps the invariant and leaves the agent table exactly as it was |
| ResolutionInvariants.StepKeepsInvariant | src/CustomerIssueResolutionSystem.ts:9-202 | every state-changing call keeps the invariant |
| ResolutionInvariants.RunKeepsInvariant | src/CustomerIssueResolutionSystem.ts:9-202 | any sequence of calls keeps the invariant; tables only grow and histories are only extended |
| ResolutionInvariants.ReachableConsistent | src/CustomerIssueResolutionSystem.ts:4-7 | every state reachable from the empty system satisfies the invariant |
| ResolutionInvariants.EvolvesExtendsWorkHistory | src/CustomerIssueResolutionSystem.ts:204-212 | along an evolution, each reported history is a prefix of the later one |
| ResolutionInvariants.HistoryEntryExtends | src/CustomerIssueResolutionSystem.ts:207-209 | an agent whose stored history only grew is still reported, with its earlier report as a prefix |
| ResolutionInvariants.WorkHistoryOnlyGrows | src/CustomerIssueResolutionSystem.ts:204-212 | after any calls, each agent's reported history extends its earlier report |
| ResolutionInvariants.QueuedHeadIsPromoted | src/CustomerIssueResolutionSystem.ts:182-198 | in a reachable state, a resolve by an agent with a non-empty waitlist always promotes the head |
| ResolutionInvariants.AssignKeepsOpenIffUnassigned | src/CustomerIssueResolutionSystem.ts:78-99 | assignment keeps an issue open exactly while it is unassigned |
| ResolutionInvariants.ResolveKeepsOpenIffUnassigned | src/CustomerIssueResolutionSystem.ts:175-198 | resolution keeps an issue open exactly while it is unassigned |
| ResolutionInvariants.PlainResolveKeepsOpenIffUnassigned | src/CustomerIssueResolutionSystem.ts:175-184 | a resolve that promotes nobody keeps an issue open exactly while it is unassigned |
| ResolutionInvariants.PromotingResolveKeepsOpenIffUnassigned | src/CustomerIssueResolutionSystem.ts:175-198 | a promoting resolve, including one whose waitlist head is the resolved issue itself, keeps an issue open exactly while it is unassigned |
| ResolutionInvariants.ReleaseKeepsOpenIffUnassigned | src/CustomerIssueResolutionSystem.ts:175-184 | the release keeps every issue open exactly while it is unassigned, and the released issue keeps its assignee and is not open |
| ResolutionInvariants.HandOverKeepsOpenIffUnassigned | src/CustomerIssueResolutionSystem.ts:187-193 | the hand-over keeps every issue open exactly while it is unassigned, and the handed issue is assigned and not open |
| ResolutionInvariants.ProtocolKeepsOpenIffUnassigned | src/CustomerIssueResolutionSystem.ts:9-202 | every call except a manual update keeps an issue open exactly while it is unassigned |
| ResolutionInvariants.ProtocolRunKeepsOpenIffUnassigned | src/CustomerIssueResolutionSystem.ts:9-202 | any run of creations, registrations, assignments and resolutions (no manual update) keeps an issue open exactly while it is unassigned |
| ResolutionScenarios.DemoCreation | src/index.ts:9-41 | the demo creates I1, I2, I3 and A1, A2 with the given fields |
| ResolutionScenarios.DemoAssignFirst | src/index.ts:44 | I1 goes to A1 |
| ResolutionScenarios.DemoAssignSecond | src/index.ts:45 | I2 goes to A2 |
| ResolutionScenarios.DemoAssignThird | src/index.ts:46 | I3 waits on A1 |
| ResolutionScenarios.DemoAssignment | src/index.ts:44-46 | the three assignments report assigned, assigned, waitlisted |
| ResolutionScenarios.DemoQueryByEmail | src/index.ts:50 | the query for testUser2 lists I2 then I3 |
| ResolutionScenarios.DemoQueryByType | src/index.ts:58 | the payment query lists I1 then I3 |
| ResolutionScenarios.DemoUpdateAndResolve | src/index.ts:66-73 | the manual update leaves I3 in progress and unassigned; the resolve is then refused and changes nothing |
| ResolutionScenarios.DemoWorkHistory | src/index.ts:77 | the final history maps A1 to [I1] and A2 to [I2] |
| ResolutionScenarios.WaitlistPromotionExample | src/CustomerIssueResolutionSystem.ts:182-198 | resolving an agent's issue starts the issue waiting on it |
| ResolutionScenarios.RepeatedAssignQueuesTwice | src/CustomerIssueResolutionSystem.ts:91-99 | assigning a waiting issue again queues it twice |
| ResolutionScenarios.ResolvingTwiceFreesBusyAgent | src/CustomerIssueResolutionSystem.ts:155-180 | a second resolve of the same issue frees an agent that is still working on its promoted issue |

The cross-entity invariant (`ResolutionInvariants.Consistent`) has three parts:

- When an agent has a current issue, it is the last entry of the agent's history.
- An issue's assignee is a stored agent whose history contains the issue.
- Every issue id an agent holds is stored.

## Left out

- `createdAt` and `updatedAt`: they are wall-clock reads that no decision depends on, so they are dropped.
- `console.log`: each message becomes a `Report` value; the message text is not modelled.
- Object identity: records are values. The source mutates records in place, stores the caller's expertise array by reference, and returns live history arrays from `viewAgentsWorkHistory`. None of this aliasing is modelled.
- Id strings: ids are `I(n)` and `A(n)`, not decimal strings. An argument of any other shape names no record and behaves like `I(0)` or `A(0)`. An empty `agentId` in a filter is written as an absent field.
- Partial updates in the stores: a patch cannot overwrite the `id`, so an update can never re-key an entry. An explicit `undefined` for a required field is not modelled.
- ResolutionSystem.WorkHistory: the record's key order is not modelled. The source's record lists agents in registration order, and the demo prints it in that order; the model returns an unordered map from agent id to history.
- Read-only calls (`getIssues`, `viewAgentsWorkHistory`, `getIssue`, `getAllIssues`, `getAgent`, `getAllAgents`): they are not steps of `ResolutionInvariants.Command`, because they change no state.
- Invariants of the intended life cycle that the code as written can break are not claimed. These include the following:
  - An in-progress issue has an assignee. `updateIssue` can set in progress on an unassigned issue.
  - An agent's current issue is in progress and assigned to it. Resolving an issue twice breaks this.
  - An issue waits on at most one agent, once. A repeated assign queues it again.
  - A queued issue is unassigned. An issue queued on one agent can later be assigned to another, and it stays in the first agent's waitlist.
  - Only a resolved issue carries a resolution. `updateIssue` with a status and a note, as in the demo, breaks this; so does the resolve whose waitlist head is the resolved issue itself.
  - A resolved issue has an assignee. `updateIssue` can mark an unassigned issue resolved.

=== FILE: agent_store.dfy ===
/** The standalone agent store of src/AgentManager.ts: a keyed table with a
    counter, registration, lookup, partial update and listing. */
module AgentStore {
  import opened Optional
  import opened Domain

  /** A `Partial<Agent>` as `Object.assign` applies it. A `None` field is absent
      and keeps the stored value; `currentIssue` takes `Some(None)` for an explicit
      `undefined`. Sequence fields are replaced wholesale, never appended to. The
      `id` is not a patchable field, so an update can never re-key an entry. */
  datatype AgentPatch = AgentPatch(
    email: Option<string>,
    name: Option<string>,
    expertiseTypes: Option<seq<IssueType>>,
    currentIssue: Option<Option<IssueId>>,
    waitlist: Option<seq<IssueId>>,
    issuesWorkedOn: Option<seq<IssueId>>)

  const NoChanges := AgentPatch(None, None, None, None, None, None)

  /** Field-by-field overwrite of `a` with the fields `p` supplies, as stated by
      `MergeReplacesSuppliedFields`. */
  function Merge(a: Agent, p: AgentPatch): Agent {
    Agent(
      a.id,
      p.email.GetOr(a.email),
      p.name.GetOr(a.name),
      p.expertiseTypes.GetOr(a.expertiseTypes),
      p.currentIssue.GetOr(a.currentIssue),
      p.waitlist.GetOr(a.waitlist),
      p.issuesWorkedOn.GetOr(a.issuesWorkedOn))
  }

  /** Stores a fresh idle agent under the next counter value. */
  function AddAgent(st: AgentTable, email: string, name: string, expertise: seq<IssueType>): (r: (AgentTable, AgentId))
    ensures r.1 == A(|st| + 1)
    ensures GetAgent(st, r.1).None?
    ensures |r.0| == |st| + 1 && r.0[..|st|] == st
    ensures var x := r.0[|st|];
      && x.id == r.1 && x.email == email && x.name == name && x.expertiseTypes == expertise
      && x.currentIssue.None? && x.waitlist == [] && x.issuesWorkedOn == []
  {
    var id := A(|st| + 1);
    (st + [NewAgent(id, email, name, expertise)], id)
  }

  /** `Map.get`: the stored agent with this id, if any. */
  function GetAgent(st: AgentTable, id: AgentId): (r: Option<Agent>)
    ensures r.Some? ==> r.value in st && r.value.id == id
    ensures r.None? <==> forall x | x in st :: x.id != id
  {
    match AgentSlot(st, id)
    case Some(k) => Some(st[k])
    case None => None
  }

  /** Overwrites the supplied fields of the agent `id`; `false` when `id` is unknown. */
  function UpdateAgent(st: AgentTable, id: AgentId, p: AgentPatch): (r: (AgentTable, bool))
    ensures r.1 <==> GetAgent(st, id).Some?
    ensures !r.1 ==> r.0 == st
    ensures |r.0| == |st|
    ensures forall k | 0 <= k < |st| && st[k].id != id :: r.0[k] == st[k]
    ensures r.1 ==> GetAgent(r.0, id) == Some(Merge(GetAgent(st, id).value, p))
  {
    match AgentSlot(st, id)
    case None => (st, false)
    case Some(k) => (st[k := Merge(st[k], p)], true)
  }

  /** Every stored agent, in registration order. */
  function GetAllAgents(st: AgentTable): (r: seq<Agent>)
    ensures |r| == |st|
    ensures forall k | 0 <= k < |r| :: r[k].id == A(k + 1) && GetAgent(st, A(k + 1)) == Some(r[k])
  {
    st
  }

  /** Each supplied field takes the patch's value (a sequence is replaced, not
      extended), every other field keeps its stored value, and the id is never changed. */
  lemma MergeReplacesSuppliedFields(a: Agent, p: AgentPatch)
    ensures Merge(a, p).id == a.id
    ensures Merge(a, p).email == (if p.email.Some? then p.email.value else a.email)
    ensures Merge(a, p).name == (if p.name.Some? then p.name.value else a.name)
    ensures Merge(a, p).expertiseTypes == (if p.expertiseTypes.Some? then p.expertiseTypes.value else a.expertiseTypes)
    ensures Merge(a, p).currentIssue == (if p.currentIssue.Some? then p.currentIssue.value else a.currentIssue)
    ensures Merge(a, p).waitlist == (if p.waitlist.Some? then p.waitlist.value else a.waitlist)
    ensures Merge(a, p).issuesWorkedOn == (if p.issuesWorkedOn.Some? then p.issuesWorkedOn.value else a.issuesWorkedOn)
  {
  }

  /** An update with the same patch twice has the effect of one. */
  lemma UpdateIdempotent(st: AgentTable, id: AgentId, p: AgentPatch)
    ensures UpdateAgent(UpdateAgent(st, id, p).0, id, p) == UpdateAgent(st, id, p)
  {
    if HasAgent(st, id) {
      var k := id.n - 1;
      assert Merge(Merge(st[k], p), p) == Merge(st[k], p);
      assert st[k := Merge(st[k], p)][k := Merge(Merge(st[k], p), p)] == st[k := Merge(st[k], p)];
    }
  }

  /** A patch that supplies nothing leaves the store as it was. */
  lemma UpdateWithNoChanges(st: AgentTable, id: AgentId)
    ensures UpdateAgent(st, id, NoChanges).0 == st
  {
  }

  /** Adding an agent leaves every earlier agent retrievable unchanged, and
      `getAllAgents` grows by exactly the new agent. */
  lemma AddKeepsEarlierAgents(st: AgentTable, email: string, name: string, expertise: seq<IssueType>, id: AgentId)
    requires GetAgent(st, id).Some?
    ensures var (st', _) := AddAgent(st, email, name, expertise);
      GetAgent(st', id) == GetAgent(st, id) && GetAllAgents(st')[..|st|] == GetAllAgents(st)
  {
  }

  /** Ids are never reused: two successive registrations return different ids,
      and the second does not disturb the first. */
  lemma AddedIdsDistinct(st: AgentTable, e1: string, e2: string, n1: string, n2: string,
                         x1: seq<IssueType>, x2: seq<IssueType>)
    ensures var (st1, id1) := AddAgent(st, e1, n1, x1);
      var (st2, id2) := AddAgent(st1, e2, n2, x2);
      id1 != id2 && GetAgent(st2, id1) == GetAgent(st1, id1)
  {
  }
}

=== FILE: domain.dfy ===
/** The records and enumerations shared by the stores and the coordinator
    (src/types.ts), and the id-keyed tables that hold them. */
module Domain {
  import opened Optional

  datatype IssueType = PaymentRelated | MutualFundRelated | GoldRelated | InsuranceRelated

  /** The intended life cycle is Open, then InProgress, then Resolved; nothing enforces it. */
  datatype IssueStatus = Open | InProgress | Resolved

  /** Issue ids are "I" followed by a counter, agent ids "A" followed by a counter;
      the counters start at 1. A string argument of any other shape names no
      stored record and behaves like `I(0)` or `A(0)`. */
  datatype IssueId = I(n: nat)
  datatype AgentId = A(n: nat)

  /** `createdAt` and `updatedAt` are wall-clock reads and are not modelled. */
  datatype Issue = Issue(
    id: IssueId,
    transactionId: string,
    issueType: IssueType,
    subject: string,
    description: string,
    customerEmail: string,
    status: IssueStatus,
    assignedAgent: Option<AgentId>,
    resolution: Option<string>)

  datatype Agent = Agent(
    id: AgentId,
    email: string,
    name: string,
    expertiseTypes: seq<IssueType>,
    currentIssue: Option<IssueId>,
    waitlist: seq<IssueId>,
    issuesWorkedOn: seq<IssueId>)

  /** A missing field, or an empty `email`, matches every issue. An empty
      `agentId` string is written `None`. */
  datatype IssueFilter = IssueFilter(
    email: Option<string>,
    issueType: Option<IssueType>,
    status: Option<IssueStatus>,
    agentId: Option<AgentId>)

  /** The stores are JavaScript `Map`s keyed by id. Entries are never deleted and
      ids come from a counter, so insertion order is id order and the entry at
      position k carries id k + 1. */
  predicate IssuesKeyed(t: seq<Issue>) {
    forall k | 0 <= k < |t| :: t[k].id == I(k + 1)
  }

  predicate AgentsKeyed(t: seq<Agent>) {
    forall k | 0 <= k < |t| :: t[k].id == A(k + 1)
  }

  type IssueTable = t: seq<Issue> | IssuesKeyed(t) witness []
  type AgentTable = t: seq<Agent> | AgentsKeyed(t) witness []

  /** `id` is a key of the issue table. */
  predicate HasIssue(t: IssueTable, id: IssueId) {
    1 <= id.n <= |t|
  }

  predicate HasAgent(t: AgentTable, id: AgentId) {
    1 <= id.n <= |t|
  }

  /** The table position of a key: what `Map.get` finds by key comparison. */
  function IssueSlot(t: IssueTable, id: IssueId): (r: Option<nat>)
    ensures r.Some? ==> r.value < |t| && t[r.value].id == id
    ensures r.None? <==> forall k | 0 <= k < |t| :: t[k].id != id
  {
    if HasIssue(t, id) then Some(id.n - 1) else None
  }

  function AgentSlot(t: AgentTable, id: AgentId): (r: Option<nat>)
    ensures r.Some? ==> r.value < |t| && t[r.value].id == id
    ensures r.None? <==> forall k | 0 <= k < |t| :: t[k].id != id
  {
    if HasAgent(t, id) then Some(id.n - 1) else None
  }

  /** The record both `createIssue` implementations store: open, unassigned, unresolved. */
  function NewIssue(id: IssueId, transactionId: string, issueType: IssueType,
                    subject: string, description: string, email: string): Issue
  {
    Issue(id, transactionId, issueType, subject, description, email, Open, None, None)
  }

  /** The record both `addAgent` implementations store: idle, nothing queued, no history. */
  function NewAgent(id: AgentId, email: string, name: string, expertise: seq<IssueType>): Agent
  {
    Agent(id, email, name, expertise, None, [], [])
  }

  /** `b` is `a` with only its status, assignee or resolution possibly changed. */
  predicate SameIssueDetails(a: Issue, b: Issue) {
    && a.id == b.id
    && a.transactionId == b.transactionId
    && a.issueType == b.issueType
    && a.subject == b.subject
    && a.description == b.description
    && a.customerEmail == b.customerEmail
  }

  /** `b` is `a` with only its work state (current issue, waitlist, history) possibly changed. */
  predicate SameAgentProfile(a: Agent, b: Agent) {
    && a.id == b.id
    && a.email == b.email
    && a.name == b.name
    && a.expertiseTypes == b.expertiseTypes
  }
}

=== FILE: issue_store.dfy ===
/** The standalone issue store of src/IssueManager.ts: a keyed table with a
    counter, creation, lookup, partial update and listing. */
module IssueStore {
  import opened Optional
  import opened Domain

  /** A `Partial<Issue>` as `Object.assign` applies it. A `None` field is absent
      and keeps the stored value. The optional properties take `Some(None)` for an
      explicit `undefined`, which clears them. The `id` is not a patchable field,
      so an update can never re-key an entry. */
  datatype IssuePatch = IssuePatch(
    transactionId: Option<string>,
    issueType: Option<IssueType>,
    subject: Option<string>,
    description: Option<string>,
    customerEmail: Option<string>,
    status: Option<IssueStatus>,
    assignedAgent: Option<Option<AgentId>>,
    resolution: Option<Option<string>>)

  const NoChanges := IssuePatch(None, None, None, None, None, None, None, None)

  /** Field-by-field overwrite of `i` with the fields `p` supplies, as stated by
      `MergeOverwritesSuppliedFields`. */
  function Merge(i: Issue, p: IssuePatch): Issue {
    Issue(
      i.id,
      p.transactionId.GetOr(i.transactionId),
      p.issueType.GetOr(i.issueType),
      p.subject.GetOr(i.subject),
      p.description.GetOr(i.description),
      p.customerEmail.GetOr(i.customerEmail),
      p.status.GetOr(i.status),
      p.assignedAgent.GetOr(i.assignedAgent),
      p.resolution.GetOr(i.resolution))
  }

  /** Stores a fresh open issue under the next counter value. */
  function CreateIssue(st: IssueTable, transactionId: string, issueType: IssueType,
                       subject: string, description: string, email: string): (r: (IssueTable, IssueId))
    ensures r.1 == I(|st| + 1)
    ensures GetIssue(st, r.1).None?
    ensures |r.0| == |st| + 1 && r.0[..|st|] == st
    ensures var x := r.0[|st|];
      && x.id == r.1
      && x.status == Open && x.assignedAgent.None? && x.resolution.None?
      && x.transactionId == transactionId && x.issueType == issueType
      && x.subject == subject && x.description == description && x.customerEmail == email
  {
    var id := I(|st| + 1);
    (st + [NewIssue(id, transactionId, issueType, subject, description, email)], id)
  }

  /** `Map.get`: the stored issue with this id, if any. */
  function GetIssue(st: IssueTable, id: IssueId): (r: Option<Issue>)
    ensures r.Some? ==> r.value in st && r.value.id == id
    ensures r.None? <==> forall x | x in st :: x.id != id
  {
    match IssueSlot(st, id)
    case Some(k) => Some(st[k])
    case None => None
  }

  /** Overwrites the supplied fields of the issue `id`; `false` when `id` is unknown. */
  function UpdateIssue(st: IssueTable, id: IssueId, p: IssuePatch): (r: (IssueTable, bool))
    ensures r.1 <==> GetIssue(st, id).Some?
    ensures !r.1 ==> r.0 == st
    ensures |r.0| == |st|
    ensures forall k | 0 <= k < |st| && st[k].id != id :: r.0[k] == st[k]
    ensures r.1 ==> GetIssue(r.0, id) == Some(Merge(GetIssue(st, id).value, p))
  {
    match IssueSlot(st, id)
    case None => (st, false)
    case Some(k) => (st[k := Merge(st[k], p)], true)
  }

  /** Every stored issue, in creation order. */
  function GetAllIssues(st: IssueTable): (r: seq<Issue>)
    ensures |r| == |st|
    ensures forall k | 0 <= k < |r| :: r[k].id == I(k + 1) && GetIssue(st, I(k + 1)) == Some(r[k])
  {
    st
  }

  /** Each supplied field takes the patch's value, every other field keeps its
      stored value, and the id is never changed. */
  lemma MergeOverwritesSuppliedFields(i: Issue, p: IssuePatch)
    ensures Merge(i, p).id == i.id
    ensures Merge(i, p).transactionId == (if p.transactionId.Some? then p.transactionId.value else i.transactionId)
    ensures Merge(i, p).issueType == (if p.issueType.Some? then p.issueType.value else i.issueType)
    ensures Merge(i, p).subject == (if p.subject.Some? then p.subject.value else i.subject)
    ensures Merge(i, p).description == (if p.description.Some? then p.description.value else i.description)
    ensures Merge(i, p).customerEmail == (if p.customerEmail.Some? then p.customerEmail.value else i.customerEmail)
    ensures Merge(i, p).status == (if p.status.Some? then p.status.value else i.status)
    ensures Merge(i, p).assignedAgent == (if p.assignedAgent.Some? then p.assignedAgent.value else i.assignedAgent)
    ensures Merge(i, p).resolution == (if p.resolution.Some? then p.resolution.value else i.resolution)
  {
  }

  /** An update with the same patch twice has the effect of one. */
  lemma UpdateIdempotent(st: IssueTable, id: IssueId, p: IssuePatch)
    ensures UpdateIssue(UpdateIssue(st, id, p).0, id, p) == UpdateIssue(st, id, p)
  {
    if HasIssue(st, id) {
      var k := id.n - 1;
      assert Merge(Merge(st[k], p), p) == Merge(st[k], p);
      assert st[k := Merge(st[k], p)][k := Merge(Merge(st[k], p), p)] == st[k := Merge(st[k], p)];
    }
  }

  /** A patch that supplies nothing leaves the store as it was. */
  lemma UpdateWithNoChanges(st: IssueTable, id: IssueId)
    ensures UpdateIssue(st, id, NoChanges).0 == st
  {
  }

  /** Creating an issue leaves every earlier issue retrievable unchanged, and
      `getAllIssues` grows by exactly the new issue. */
  lemma CreateKeepsEarlierIssues(st: IssueTable, transactionId: string, issueType: IssueType,
                                 subject: string, description: string, email: string, id: IssueId)
    requires GetIssue(st, id).Some?
    ensures var (st', _) := CreateIssue(st, transactionId, issueType, subject, description, email);
      GetIssue(st', id) == GetIssue(st, id) && GetAllIssues(st')[..|st|] == GetAllIssues(st)
  {
  }

  /** Ids are never reused: the ids returned by two successive creations differ,
      and the second does not disturb the first. */
  lemma CreatedIdsDistinct(st: IssueTable, t1: string, t2: string, ty1: IssueType, ty2: IssueType,
                           s1: string, s2: string, d1: string, d2: string, e1: string, e2: string)
    ensures var (st1, id1) := CreateIssue(st, t1, ty1, s1, d1, e1);
      var (st2, id2) := CreateIssue(st1, t2, ty2, s2, d2, e2);
      id1 != id2 && GetIssue(st2, id1) == GetIssue(st1, id1)
  {
  }
}

=== FILE: optional.dfy ===
/** An optional value: a TypeScript `T | undefined`, or an optional property. */
module Optional {

  datatype Option<+T> = None | Some(value: T) {

    /** The value, or `default` when there is none. */
    function GetOr(default: T): T {
      match this
      case Some(v) => v
      case None => default
    }
  }
}

=== FILE: resolution_invariants.dfy ===
/** Cross-entity invariants of the coordinator, kept by every operation and
    therefore by every sequence of calls starting from the empty system. */
module ResolutionInvariants {
  import opened Optional
  import opened Sequences
  import opened Domain
  import opened ResolutionSystem

  /** One public call on the coordinator; the read-only calls change nothing and are left out. */
  datatype Command =
    | CreateIssueCall(transactionId: string, issueType: IssueType, subject: string, description: string, email: string)
    | AddAgentCall(email: string, name: string, expertise: seq<IssueType>)
    | AssignCall(id: IssueId)
    | ResolveCall(id: IssueId, text: string)
    | UpdateCall(id: IssueId, status: IssueStatus, resolution: Option<string>)

  function Step(s: System, c: Command): System {
    match c
    case CreateIssueCall(t, ty, sub, d, e) => CreateIssue(s, t, ty, sub, d, e).0
    case AddAgentCall(e, n, x) => AddAgent(s, e, n, x).0
    case AssignCall(id) => AssignIssue(s, id).0
    case ResolveCall(id, text) => ResolveIssue(s, id, text).0
    case UpdateCall(id, st, res) => UpdateIssue(s, id, st, res).0
  }

  function Run(s: System, cs: seq<Command>): System
    decreases |cs|
  {
    if |cs| == 0 then s else Run(Step(s, cs[0]), cs[1..])
  }

  /** Every issue id an agent holds (current, queued or in its history) is stored. */
  predicate ReferencesStored(s: System) {
    forall j | 0 <= j < |s.agents| ::
      && (s.agents[j].currentIssue.Some? ==> HasIssue(s.issues, s.agents[j].currentIssue.value))
      && (forall x | x in s.agents[j].waitlist :: HasIssue(s.issues, x))
      && (forall x | x in s.agents[j].issuesWorkedOn :: HasIssue(s.issues, x))
  }

  /** An agent's current issue is the last entry of its history. */
  predicate CurrentIsLatest(s: System) {
    forall j | 0 <= j < |s.agents| :: s.agents[j].currentIssue.Some? ==>
      |s.agents[j].issuesWorkedOn| > 0 && s.agents[j].issuesWorkedOn[|s.agents[j].issuesWorkedOn| - 1] == s.agents[j].currentIssue.value
  }

  /** An issue's assignee is a stored agent that has the issue in its history. */
  predicate AssigneesRecorded(s: System) {
    forall k | 0 <= k < |s.issues| :: s.issues[k].assignedAgent.Some? ==>
      && HasAgent(s.agents, s.issues[k].assignedAgent.value)
      && s.issues[k].id in s.agents[s.issues[k].assignedAgent.value.n - 1].issuesWorkedOn
  }

  predicate Consistent(s: System) {
    ReferencesStored(s) && CurrentIsLatest(s) && AssigneesRecorded(s)
  }

  /** From `s` to `s'` the tables only grow, no record changes identity or
      profile, and no agent's history loses or reorders an entry. */
  predicate Evolves(s: System, s': System) {
    && |s.issues| <= |s'.issues| && |s.agents| <= |s'.agents|
    && (forall k | 0 <= k < |s.issues| :: SameIssueDetails(s.issues[k], s'.issues[k]))
    && (forall j | 0 <= j < |s.agents| ::
          SameAgentProfile(s.agents[j], s'.agents[j])
          && IsPrefix(s.agents[j].issuesWorkedOn, s'.agents[j].issuesWorkedOn))
  }

  lemma CreateIssueKeepsInvariant(s: System, t: string, ty: IssueType, sub: string, d: string, e: string)
    requires Consistent(s)
    ensures Consistent(CreateIssue(s, t, ty, sub, d, e).0)
    ensures Evolves(s, CreateIssue(s, t, ty, sub, d, e).0)
  {
  }

  lemma AddAgentKeepsInvariant(s: System, e: string, n: string, x: seq<IssueType>)
    requires Consistent(s)
    ensures Consistent(AddAgent(s, e, n, x).0)
    ensures Evolves(s, AddAgent(s, e, n, x).0)
  {
  }

  /** Handing a stored issue to a stored agent keeps the invariant, whoever
      held the issue before. */
  lemma HandOverKeepsInvariant(s: System, k: nat, j: nat, s': System)
    requires Consistent(s)
    requires k < |s.issues| && j < |s.agents|
    requires s' == HandOver(s, k, j)
    ensures Consistent(s') && Evolves(s, s')
  {
    HandOverKeepsAssigneesRecorded(s, k, j);
    HandOverExtendsHistory(s, k, j);
  }

  lemma HandOverKeepsAssigneesRecorded(s: System, k: nat, j: nat)
    requires AssigneesRecorded(s)
    requires k < |s.issues| && j < |s.agents|
    ensures AssigneesRecorded(HandOver(s, k, j))
  {
    var s' := HandOver(s, k, j);
    forall m | 0 <= m < |s'.issues| && s'.issues[m].assignedAgent.Some?
      ensures s'.issues[m].id in s'.agents[s'.issues[m].assignedAgent.value.n - 1].issuesWorkedOn
    {
      if m != k {
        var i := s.issues[m].assignedAgent.value.n - 1;
        assert s.issues[m].id in s.agents[i].issuesWorkedOn;
        assert s.agents[i].issuesWorkedOn <= s'.agents[i].issuesWorkedOn;
      }
    }
  }

  /** A hand-over appends the issue to the taking agent's history and leaves
      every other agent as it was. */
  lemma HandOverExtendsHistory(s: System, k: nat, j: nat)
    requires k < |s.issues| && j < |s.agents|
    ensures Evolves(s, HandOver(s, k, j))
    ensures HandOver(s, k, j).agents[j].issuesWorkedOn == s.agents[j].issuesWorkedOn + [s.issues[k].id]
    ensures forall i | 0 <= i < |s.agents| && i != j :: HandOver(s, k, j).agents[i] == s.agents[i]
  {
    var s' := HandOver(s, k, j);
    forall i | 0 <= i < |s.agents|
      ensures IsPrefix(s.agents[i].issuesWorkedOn, s'.agents[i].issuesWorkedOn)
    {
      if i == j {
        assert s'.agents[i].issuesWorkedOn == s.agents[i].issuesWorkedOn + [I(k + 1)];
      }
    }
  }

  /** Queueing a stored issue on a stored agent keeps the invariant. */
  lemma EnqueueKeepsInvariant(s: System, id: IssueId, j: nat, s': System)
    requires Consistent(s)
    requires HasIssue(s.issues, id) && j < |s.agents|
    requires s' == s.(agents := s.agents[j := s.agents[j].(waitlist := s.agents[j].waitlist + [id])])
    ensures Consistent(s') && Evolves(s, s')
  {
    assert forall i | 0 <= i < |s.agents| :: s'.agents[i].issuesWorkedOn == s.agents[i].issuesWorkedOn;
  }

  lemma AssignKeepsInvariant(s: System, id: IssueId)
    requires Consistent(s)
    ensures Consistent(AssignIssue(s, id).0)
    ensures Evolves(s, AssignIssue(s, id).0)
  {
    var rep := AssignIssue(s, id).1;
    if rep.Assigned? {
      AssignedKeepsInvariant(s, id);
    } else if rep.Waitlisted? {
      WaitlistedKeepsInvariant(s, id);
    } else {
      AssignIsHandOverOrEnqueue(s, id);
      EvolvesReflexive(s);
    }
  }

  lemma AssignedKeepsInvariant(s: System, id: IssueId)
    requires Consistent(s)
    requires AssignIssue(s, id).1.Assigned?
    ensures Consistent(AssignIssue(s, id).0)
    ensures Evolves(s, AssignIssue(s, id).0)
  {
    AssignIsHandOverOrEnqueue(s, id);
    HandOverKeepsInvariant(s, id.n - 1, AssignIssue(s, id).1.agent.n - 1, AssignIssue(s, id).0);
  }

  lemma WaitlistedKeepsInvariant(s: System, id: IssueId)
    requires Consistent(s)
    requires AssignIssue(s, id).1.Waitlisted?
    ensures Consistent(AssignIssue(s, id).0)
    ensures Evolves(s, AssignIssue(s, id).0)
  {
    AssignIsHandOverOrEnqueue(s, id);
    EnqueueKeepsInvariant(s, id, AssignIssue(s, id).1.agent.n - 1, AssignIssue(s, id).0);
  }

  /** Resolving an issue and freeing its agent keeps the invariant. */
  lemma ReleaseKeepsInvariant(s: System, k: nat, j: nat, text: string, s': System)
    requires Consistent(s)
    requires k < |s.issues| && j < |s.agents|
    requires s' == Release(s, k, j, text)
    ensures Consistent(s') && Evolves(s, s')
  {
    assert forall i | 0 <= i < |s.agents| :: s'.agents[i].issuesWorkedOn == s.agents[i].issuesWorkedOn;
    assert forall x | x in s'.agents[j].waitlist :: x in s.agents[j].waitlist;
    assert forall m | 0 <= m < |s.issues| :: s'.issues[m].assignedAgent == s.issues[m].assignedAgent;
  }

  lemma ResolveKeepsInvariant(s: System, id: IssueId, text: string)
    requires Consistent(s)
    ensures Consistent(ResolveIssue(s, id, text).0)
    ensures Evolves(s, ResolveIssue(s, id, text).0)
  {
    if HasIssue(s.issues, id) && s.issues[id.n - 1].assignedAgent.Some?
       && HasAgent(s.agents, s.issues[id.n - 1].assignedAgent.value) {
      var j := s.issues[id.n - 1].assignedAgent.value.n - 1;
      if NextPromotion(s, s.agents[j]).Some? {
        PromotingResolveKeepsInvariant(s, id, text);
      } else {
        PlainResolveKeepsInvariant(s, id, text);
      }
    } else {
      assert ResolveIssue(s, id, text).0 == s;
    }
  }

  /** A resolve that promotes nobody is a release alone. */
  lemma PlainResolveKeepsInvariant(s: System, id: IssueId, text: string)
    requires Consistent(s)
    requires HasIssue(s.issues, id) && s.issues[id.n - 1].assignedAgent.Some?
    requires HasAgent(s.agents, s.issues[id.n - 1].assignedAgent.value)
    requires NextPromotion(s, s.agents[s.issues[id.n - 1].assignedAgent.value.n - 1]).None?
    ensures Consistent(ResolveIssue(s, id, text).0)
    ensures Evolves(s, ResolveIssue(s, id, text).0)
  {
    var k := id.n - 1;
    var j := s.issues[k].assignedAgent.value.n - 1;
    ResolveIsReleaseThenPromotion(s, id, text);
    assert ResolveIssue(s, id, text).0 == Release(s, k, j, text);
    ReleaseKeepsInvariant(s, k, j, text, ResolveIssue(s, id, text).0);
  }

  /** A promoting resolve is a release followed by one hand-over. */
  lemma PromotingResolveKeepsInvariant(s: System, id: IssueId, text: string)
    requires Consistent(s)
    requires HasIssue(s.issues, id) && s.issues[id.n - 1].assignedAgent.Some?
    requires HasAgent(s.agents, s.issues[id.n - 1].assignedAgent.value)
    requires NextPromotion(s, s.agents[s.issues[id.n - 1].assignedAgent.value.n - 1]).Some?
    ensures Consistent(ResolveIssue(s, id, text).0)
    ensures Evolves(s, ResolveIssue(s, id, text).0)
  {
    var k := id.n - 1;
    var j := s.issues[k].assignedAgent.value.n - 1;
    var m := NextPromotion(s, s.agents[j]).value.n - 1;
    ResolveIsReleaseThenPromotion(s, id, text);
    assert ResolveIssue(s, id, text).0 == HandOver(Release(s, k, j, text), m, j);
    ReleaseThenHandOverKeepsInvariant(s, k, j, m, text, ResolveIssue(s, id, text).0);
  }

  /** Releasing issue `k` from agent `j` and then handing issue `m` to the same
      agent keeps the invariant. */
  lemma ReleaseThenHandOverKeepsInvariant(s: System, k: nat, j: nat, m: nat, text: string, s': System)
    requires Consistent(s)
    requires k < |s.issues| && j < |s.agents| && m < |s.issues|
    requires s' == HandOver(Release(s, k, j, text), m, j)
    ensures Consistent(s') && Evolves(s, s')
  {
    var mid := Release(s, k, j, text);
    ReleaseKeepsInvariant(s, k, j, text, mid);
    HandOverKeepsInvariant(mid, m, j, s');
    EvolvesTransitive(s, mid, HandOver(mid, m, j));
  }

  lemma EvolvesTransitive(s1: System, s2: System, s3: System)
    requires Evolves(s1, s2) && Evolves(s2, s3)
    ensures Evolves(s1, s3)
  {
    forall j | 0 <= j < |s1.agents|
      ensures IsPrefix(s1.agents[j].issuesWorkedOn, s3.agents[j].issuesWorkedOn)
    {
      var h1, h2, h3 := s1.agents[j].issuesWorkedOn, s2.agents[j].issuesWorkedOn, s3.agents[j].issuesWorkedOn;
      assert h3[..|h2|] == h2;
      assert h3[..|h1|] == h3[..|h2|][..|h1|];
    }
  }

  /** A manual status update keeps the invariant and touches no agent. */
  lemma UpdateKeepsInvariant(s: System, id: IssueId, st: IssueStatus, res: Option<string>)
    requires Consistent(s)
    ensures Consistent(UpdateIssue(s, id, st, res).0)
    ensures Evolves(s, UpdateIssue(s, id, st, res).0)
    ensures UpdateIssue(s, id, st, res).0.agents == s.agents
  {
    var s' := UpdateIssue(s, id, st, res).0;
    assert s'.agents == s.agents && |s'.issues| == |s.issues|;
    assert forall k | 0 <= k < |s.issues| :: s'.issues[k].assignedAgent == s.issues[k].assignedAgent;
    EvolvesReflexive(s);
  }

  lemma StepKeepsInvariant(s: System, c: Command)
    requires Consistent(s)
    ensures Consistent(Step(s, c)) && Evolves(s, Step(s, c))
  {
    match c
    case CreateIssueCall(t, ty, sub, d, e) => CreateIssueKeepsInvariant(s, t, ty, sub, d, e);
    case AddAgentCall(e, n, x) => AddAgentKeepsInvariant(s, e, n, x);
    case AssignCall(id) => AssignKeepsInvariant(s, id);
    case ResolveCall(id, text) => ResolveKeepsInvariant(s, id, text);
    case UpdateCall(id, st, res) => UpdateKeepsInvariant(s, id, st, res);
  }

  lemma EvolvesReflexive(s: System)
    ensures Evolves(s, s)
  {
    forall j | 0 <= j < |s.agents|
      ensures IsPrefix(s.agents[j].issuesWorkedOn, s.agents[j].issuesWorkedOn)
    {
      assert s.agents[j].issuesWorkedOn[..|s.agents[j].issuesWorkedOn|] == s.agents[j].issuesWorkedOn;
    }
  }

  /** Any sequence of calls keeps the invariant, and along it no agent's work
      history ever loses an entry. */
  lemma {:induction false} RunKeepsInvariant(s: System, cs: seq<Command>)
    requires Consistent(s)
    ensures Consistent(Run(s, cs)) && Evolves(s, Run(s, cs))
    decreases |cs|
  {
    if |cs| == 0 {
      EvolvesReflexive(s);
    } else {
      StepKeepsInvariant(s, cs[0]);
      RunKeepsInvariant(Step(s, cs[0]), cs[1..]);
      EvolvesTransitive(s, Step(s, cs[0]), Run(s, cs));
    }
  }

  /** Every state reachable from the empty system is consistent. */
  lemma ReachableConsistent(cs: seq<Command>)
    ensures Consistent(Run(Initial, cs))
  {
    RunKeepsInvariant(Initial, cs);
  }

  /** Every agent of work history `h` is still in `h'`, with its old history as a prefix. */
  predicate HistoryExtends(h: map<AgentId, seq<IssueId>>, h': map<AgentId, seq<IssueId>>) {
    forall a | a in h :: a in h' && IsPrefix(h[a], h'[a])
  }

  lemma EvolvesExtendsWorkHistory(s: System, s': System)
    requires Evolves(s, s')
    ensures HistoryExtends(WorkHistory(s), WorkHistory(s'))
  {
    forall a | a in WorkHistory(s)
      ensures a in WorkHistory(s') && IsPrefix(WorkHistory(s)[a], WorkHistory(s')[a])
    {
      HistoryEntryExtends(s, s', a);
    }
  }

  /** One agent's reported history, when its stored history only grew. */
  lemma HistoryEntryExtends(s: System, s': System, a: AgentId)
    requires |s.agents| <= |s'.agents|
    requires a in WorkHistory(s)
    requires IsPrefix(s.agents[a.n - 1].issuesWorkedOn, s'.agents[a.n - 1].issuesWorkedOn)
    ensures a in WorkHistory(s') && IsPrefix(WorkHistory(s)[a], WorkHistory(s')[a])
  {
    assert s.agents[a.n - 1].id == a && s'.agents[a.n - 1].id == a;
  }

  /** `viewAgentsWorkHistory` never forgets: after any sequence of calls every
      agent reported before is still reported, with its old history as a prefix. */
  lemma WorkHistoryOnlyGrows(s: System, cs: seq<Command>)
    requires Consistent(s)
    ensures HistoryExtends(WorkHistory(s), WorkHistory(Run(s, cs)))
  {
    RunKeepsInvariant(s, cs);
    EvolvesExtendsWorkHistory(s, Run(s, cs));
  }

  /** In a consistent state every queued id names a stored issue, so a resolve
      by an agent with a non-empty waitlist always promotes its head. */
  lemma QueuedHeadIsPromoted(s: System, id: IssueId, text: string)
    requires Consistent(s)
    requires HasIssue(s.issues, id) && s.issues[id.n - 1].assignedAgent.Some?
    requires HasAgent(s.agents, s.issues[id.n - 1].assignedAgent.value)
    ensures var agent := s.agents[s.issues[id.n - 1].assignedAgent.value.n - 1];
      |agent.waitlist| > 0 ==> ResolveIssue(s, id, text).1 == MarkedResolved(Some(agent.waitlist[0]))
  {
    var agent := s.agents[s.issues[id.n - 1].assignedAgent.value.n - 1];
    if |agent.waitlist| > 0 {
      assert agent.waitlist[0] in agent.waitlist;
    }
  }

  /** Without manual status updates an issue is open exactly while it is unassigned. */
  predicate OpenIffUnassigned(s: System) {
    forall k | 0 <= k < |s.issues| :: s.issues[k].status == Open <==> s.issues[k].assignedAgent.None?
  }

  lemma AssignKeepsOpenIffUnassigned(s: System, id: IssueId)
    requires OpenIffUnassigned(s)
    ensures OpenIffUnassigned(AssignIssue(s, id).0)
  {
    AssignIsHandOverOrEnqueue(s, id);
  }

  lemma ResolveKeepsOpenIffUnassigned(s: System, id: IssueId, text: string)
    requires OpenIffUnassigned(s)
    ensures OpenIffUnassigned(ResolveIssue(s, id, text).0)
  {
    if HasIssue(s.issues, id) && s.issues[id.n - 1].assignedAgent.Some?
       && HasAgent(s.agents, s.issues[id.n - 1].assignedAgent.value) {
      var j := s.issues[id.n - 1].assignedAgent.value.n - 1;
      if NextPromotion(s, s.agents[j]).Some? {
        PromotingResolveKeepsOpenIffUnassigned(s, id, text);
      } else {
        PlainResolveKeepsOpenIffUnassigned(s, id, text);
      }
    } else {
      assert ResolveIssue(s, id, text).0 == s;
    }
  }

  lemma PlainResolveKeepsOpenIffUnassigned(s: System, id: IssueId, text: string)
    requires OpenIffUnassigned(s)
    requires HasIssue(s.issues, id) && s.issues[id.n - 1].assignedAgent.Some?
    requires HasAgent(s.agents, s.issues[id.n - 1].assignedAgent.value)
    requires NextPromotion(s, s.agents[s.issues[id.n - 1].assignedAgent.value.n - 1]).None?
    ensures OpenIffUnassigned(ResolveIssue(s, id, text).0)
  {
    var k := id.n - 1;
    var j := s.issues[k].assignedAgent.value.n - 1;
    ResolveIsReleaseThenPromotion(s, id, text);
    assert ResolveIssue(s, id, text).0 == Release(s, k, j, text);
    ReleaseKeepsOpenIffUnassigned(s, k, j, text, ResolveIssue(s, id, text).0);
  }

  lemma PromotingResolveKeepsOpenIffUnassigned(s: System, id: IssueId, text: string)
    requires OpenIffUnassigned(s)
    requires HasIssue(s.issues, id) && s.issues[id.n - 1].assignedAgent.Some?
    requires HasAgent(s.agents, s.issues[id.n - 1].assignedAgent.value)
    requires NextPromotion(s, s.agents[s.issues[id.n - 1].assignedAgent.value.n - 1]).Some?
    ensures OpenIffUnassigned(ResolveIssue(s, id, text).0)
  {
    var k := id.n - 1;
    var j := s.issues[k].assignedAgent.value.n - 1;
    var m := NextPromotion(s, s.agents[j]).value.n - 1;
    var mid := Release(s, k, j, text);
    ResolveIsReleaseThenPromotion(s, id, text);
    assert ResolveIssue(s, id, text).0 == HandOver(mid, m, j);
    ReleaseKeepsOpenIffUnassigned(s, k, j, text, mid);
    HandOverKeepsOpenIffUnassigned(mid, m, j, ResolveIssue(s, id, text).0);
  }

  /** Resolving an assigned issue leaves it assigned and no longer open. */
  lemma ReleaseKeepsOpenIffUnassigned(s: System, k: nat, j: nat, text: string, s': System)
    requires OpenIffUnassigned(s)
    requires k < |s.issues| && j < |s.agents| && s.issues[k].assignedAgent.Some?
    requires s' == Release(s, k, j, text)
    ensures OpenIffUnassigned(s')
    ensures s'.issues[k].assignedAgent == s.issues[k].assignedAgent && s'.issues[k].status != Open
  {
  }

  /** A hand-over leaves the handed issue assigned and no longer open. */
  lemma HandOverKeepsOpenIffUnassigned(s: System, k: nat, j: nat, s': System)
    requires OpenIffUnassigned(s)
    requires k < |s.issues| && j < |s.agents|
    requires s' == HandOver(s, k, j)
    ensures OpenIffUnassigned(s')
    ensures s'.issues[k].assignedAgent.Some? && s'.issues[k].status != Open
  {
  }

  /** Creation, registration, assignment and resolution keep an issue open
      exactly while it is unassigned; only `updateIssue` can break this. */
  lemma ProtocolKeepsOpenIffUnassigned(s: System, c: Command)
    requires OpenIffUnassigned(s)
    requires !c.UpdateCall?
    ensures OpenIffUnassigned(Step(s, c))
  {
    match c
    case AssignCall(id) => AssignKeepsOpenIffUnassigned(s, id);
    case ResolveCall(id, text) => ResolveKeepsOpenIffUnassigned(s, id, text);
    case _ =>
  }

  lemma {:induction false} ProtocolRunKeepsOpenIffUnassigned(s: System, cs: seq<Command>)
    requires OpenIffUnassigned(s)
    requires forall i | 0 <= i < |cs| :: !cs[i].UpdateCall?
    ensures OpenIffUnassigned(Run(s, cs))
    decreases |cs|
  {
    if |cs| > 0 {
      ProtocolKeepsOpenIffUnassigned(s, cs[0]);
      ProtocolRunKeepsOpenIffUnassigned(Step(s, cs[0]), cs[1..]);
    }
  }
}

=== FILE: resolution_scenarios.dfy ===
/** Concrete runs of the coordinator: the demo in src/index.ts, a worked
    example of assignment, waitlisting and promotion, and the paths on which
    the code as written departs from the intended life cycle. */
module ResolutionScenarios {
  import opened Optional
  import opened Domain
  import opened ResolutionSystem
  import opened ResolutionInvariants

  const NoFilter := IssueFilter(None, None, None, None)

  function Ids(issues: seq<Issue>): seq<IssueId> {
    seq(|issues|, k requires 0 <= k < |issues| => issues[k].id)
  }

  // The demo in src/index.ts, staged through its intermediate states.

  const Issue1 := NewIssue(I(1), "T1", PaymentRelated, "Payment Failed", "My payment failed but money is debited", "testUser1@test.com")
  const Issue2 := NewIssue(I(2), "T2", MutualFundRelated, "Purchase Failed", "Unable to purchase Mutual Fund", "testUser2@test.com")
  const Issue3 := NewIssue(I(3), "T3", PaymentRelated, "Payment Failed", "My payment failed but money is debited", "testUser2@test.com")
  const Agent1 := NewAgent(A(1), "agent1@test.com", "Agent 1", [PaymentRelated, GoldRelated])
  const Agent2 := NewAgent(A(2), "agent2@test.com", "Agent 2", [MutualFundRelated])

  /** After the three issues and the two agents are created. */
  function DemoCreated(): System {
    System([Issue1, Issue2, Issue3], [Agent1, Agent2])
  }

  /** After the three assignments. */
  function DemoAssigned(): System {
    System([StartWork(Issue1, A(1)), StartWork(Issue2, A(2)), Issue3],
           [TakeOn(Agent1, I(1)).(waitlist := [I(3)]), TakeOn(Agent2, I(2))])
  }

  /** After the manual status update of I3. */
  function DemoUpdated(): System {
    DemoAssigned().(issues := DemoAssigned().issues[2 := Issue3.(status := InProgress, resolution := Some("Waiting for payment confirmation"))])
  }

  lemma DemoCreation()
    ensures
      var (s1, i1) := CreateIssue(Initial, "T1", PaymentRelated, "Payment Failed", "My payment failed but money is debited", "testUser1@test.com");
      var (s2, i2) := CreateIssue(s1, "T2", MutualFundRelated, "Purchase Failed", "Unable to purchase Mutual Fund", "testUser2@test.com");
      var (s3, i3) := CreateIssue(s2, "T3", PaymentRelated, "Payment Failed", "My payment failed but money is debited", "testUser2@test.com");
      var (s4, a1) := AddAgent(s3, "agent1@test.com", "Agent 1", [PaymentRelated, GoldRelated]);
      var (s5, a2) := AddAgent(s4, "agent2@test.com", "Agent 2", [MutualFundRelated]);
      [i1, i2, i3] == [I(1), I(2), I(3)] && [a1, a2] == [A(1), A(2)] && s5 == DemoCreated()
  {
  }

  /** I1 goes to A1, the first agent with payment expertise. */
  lemma DemoAssignFirst()
    ensures AssignIssue(DemoCreated(), I(1))
         == (System([StartWork(Issue1, A(1)), Issue2, Issue3], [TakeOn(Agent1, I(1)), Agent2]), Assigned(A(1)))
  {
    var s := DemoCreated();
    assert IsFreeExpert(s.agents[0], PaymentRelated);
    var r := AssignIssue(s, I(1));
    assert r.1 == Assigned(A(1));
    assert r.0.issues == s.issues[0 := StartWork(Issue1, A(1))] == [StartWork(Issue1, A(1)), Issue2, Issue3];
    assert r.0.agents == s.agents[0 := TakeOn(Agent1, I(1))] == [TakeOn(Agent1, I(1)), Agent2];
  }

  /** I2 goes to A2, the only mutual-fund expert. */
  lemma DemoAssignSecond()
    ensures AssignIssue(System([StartWork(Issue1, A(1)), Issue2, Issue3], [TakeOn(Agent1, I(1)), Agent2]), I(2))
         == (System([StartWork(Issue1, A(1)), StartWork(Issue2, A(2)), Issue3], [TakeOn(Agent1, I(1)), TakeOn(Agent2, I(2))]),
             Assigned(A(2)))
  {
    var s := System([StartWork(Issue1, A(1)), Issue2, Issue3], [TakeOn(Agent1, I(1)), Agent2]);
    assert IsFreeExpert(s.agents[1], MutualFundRelated) && !IsFreeExpert(s.agents[0], MutualFundRelated);
    var r := AssignIssue(s, I(2));
    assert r.1 == Assigned(A(2));
    assert r.0.issues == s.issues[1 := StartWork(Issue2, A(2))] == [StartWork(Issue1, A(1)), StartWork(Issue2, A(2)), Issue3];
    assert r.0.agents == s.agents[1 := TakeOn(Agent2, I(2))] == [TakeOn(Agent1, I(1)), TakeOn(Agent2, I(2))];
  }

  /** A1 is busy and A2 knows nothing of payments, so I3 waits on A1. */
  lemma DemoAssignThird()
    ensures AssignIssue(System([StartWork(Issue1, A(1)), StartWork(Issue2, A(2)), Issue3], [TakeOn(Agent1, I(1)), TakeOn(Agent2, I(2))]), I(3))
         == (DemoAssigned(), Waitlisted(A(1)))
  {
    var s := System([StartWork(Issue1, A(1)), StartWork(Issue2, A(2)), Issue3], [TakeOn(Agent1, I(1)), TakeOn(Agent2, I(2))]);
    assert IsExpert(s.agents[0], PaymentRelated);
    assert !IsFreeExpert(s.agents[0], PaymentRelated) && !IsFreeExpert(s.agents[1], PaymentRelated);
    assert s.agents[0].waitlist + [I(3)] == [I(3)];
    var r := AssignIssue(s, I(3));
    assert r.1 == Waitlisted(A(1));
    assert r.0.agents == s.agents[0 := TakeOn(Agent1, I(1)).(waitlist := [I(3)])] == DemoAssigned().agents;
  }

  /** The three assignments of the demo, in order. */
  lemma DemoAssignment()
    ensures
      var (s6, r1) := AssignIssue(DemoCreated(), I(1));
      var (s7, r2) := AssignIssue(s6, I(2));
      var (s8, r3) := AssignIssue(s7, I(3));
      r1 == Assigned(A(1)) && r2 == Assigned(A(2)) && r3 == Waitlisted(A(1)) && s8 == DemoAssigned()
  {
    DemoAssignFirst();
    DemoAssignSecond();
    DemoAssignThird();
  }

  /** The query by customer email finds the two issues of testUser2, in order. */
  lemma DemoQueryByEmail()
    ensures Ids(GetIssues(DemoAssigned(), NoFilter.(email := Some("testUser2@test.com")))) == [I(2), I(3)]
  {
    var issues := DemoAssigned().issues;
    var f := NoFilter.(email := Some("testUser2@test.com"));
    SelectMatchingThree(issues[0], issues[1], issues[2], f);
    assert issues == [issues[0], issues[1], issues[2]];
    assert !Matches(f, issues[0]) && Matches(f, issues[1]) && Matches(f, issues[2]);
  }

  /** The query by type finds the two payment issues, in order. */
  lemma DemoQueryByType()
    ensures Ids(GetIssues(DemoAssigned(), NoFilter.(issueType := Some(PaymentRelated)))) == [I(1), I(3)]
  {
    var issues := DemoAssigned().issues;
    var f := NoFilter.(issueType := Some(PaymentRelated));
    SelectMatchingThree(issues[0], issues[1], issues[2], f);
    assert issues == [issues[0], issues[1], issues[2]];
    assert Matches(f, issues[0]) && !Matches(f, issues[1]) && Matches(f, issues[2]);
  }

  /** The manual update puts the waiting I3 in progress with nobody assigned,
      so the later resolve is refused and changes nothing. */
  lemma DemoUpdateAndResolve()
    ensures
      var (s9, r4) := UpdateIssue(DemoAssigned(), I(3), InProgress, Some("Waiting for payment confirmation"));
      var (s10, r5) := ResolveIssue(s9, I(3), "PaymentFailed debited amount will get reversed");
      && r4 == StatusUpdated && s9 == DemoUpdated()
      && s9.issues[2].status == InProgress && s9.issues[2].assignedAgent.None?
      && !OpenIffUnassigned(s9)
      && r5 == NotAssigned && s10 == s9
  {
  }

  /** The work history printed at the end of the demo. */
  lemma DemoWorkHistory()
    ensures WorkHistory(DemoUpdated()) == map[A(1) := [I(1)], A(2) := [I(2)]]
  {
    var s := DemoUpdated();
    var h := WorkHistory(s);
    assert s.agents[0].issuesWorkedOn == [I(1)] && s.agents[1].issuesWorkedOn == [I(2)];
    assert h.Keys == {A(1), A(2)};
    assert h[A(1)] == [I(1)] && h[A(2)] == [I(2)];
  }

  /** Assignment, waitlisting and promotion on one agent: the queued issue is
      started as soon as the agent's current issue is resolved. */
  lemma WaitlistPromotionExample()
    ensures
      var (s1, _) := CreateIssue(Initial, "T1", PaymentRelated, "s", "d", "e");
      var (s2, _) := AddAgent(s1, "a", "n", [PaymentRelated]);
      var (s3, r1) := AssignIssue(s2, I(1));
      var (s4, _) := CreateIssue(s3, "T2", PaymentRelated, "s", "d", "e");
      var (s5, r2) := AssignIssue(s4, I(2));
      var (s6, r3) := ResolveIssue(s5, I(1), "fixed");
      && r1 == Assigned(A(1)) && s3.issues[0].status == InProgress
      && r2 == Waitlisted(A(1)) && s5.agents[0].waitlist == [I(2)] && s5.issues[1].status == Open
      && r3 == MarkedResolved(Some(I(2)))
      && s6.issues[0].status == Resolved && s6.issues[0].resolution == Some("fixed")
      && s6.agents[0].currentIssue == Some(I(2)) && s6.agents[0].waitlist == []
      && s6.issues[1].status == InProgress && s6.issues[1].assignedAgent == Some(A(1))
      && s6.agents[0].issuesWorkedOn == [I(1), I(2)]
  {
    var (s1, _) := CreateIssue(Initial, "T1", PaymentRelated, "s", "d", "e");
    var (s2, _) := AddAgent(s1, "a", "n", [PaymentRelated]);
    assert IsFreeExpert(s2.agents[0], PaymentRelated);
    var (s3, r1) := AssignIssue(s2, I(1));
    var (s4, _) := CreateIssue(s3, "T2", PaymentRelated, "s", "d", "e");
    assert IsExpert(s4.agents[0], PaymentRelated);
    var (s5, r2) := AssignIssue(s4, I(2));
    var (s6, r3) := ResolveIssue(s5, I(1), "fixed");
  }

  /** Assigning a still-waiting issue again queues it a second time. */
  lemma RepeatedAssignQueuesTwice()
    ensures
      var (s1, _) := CreateIssue(Initial, "T1", GoldRelated, "s", "d", "e");
      var (s2, _) := CreateIssue(s1, "T2", GoldRelated, "s", "d", "e");
      var (s3, _) := AddAgent(s2, "a", "n", [GoldRelated]);
      var (s4, _) := AssignIssue(s3, I(1));
      var (s5, r1) := AssignIssue(s4, I(2));
      var (s6, r2) := AssignIssue(s5, I(2));
      r1 == Waitlisted(A(1)) && r2 == Waitlisted(A(1)) && s6.agents[0].waitlist == [I(2), I(2)]
  {
    var (s1, _) := CreateIssue(Initial, "T1", GoldRelated, "s", "d", "e");
    var (s2, _) := CreateIssue(s1, "T2", GoldRelated, "s", "d", "e");
    var (s3, _) := AddAgent(s2, "a", "n", [GoldRelated]);
    assert IsFreeExpert(s3.agents[0], GoldRelated);
    var (s4, _) := AssignIssue(s3, I(1));
    assert IsExpert(s4.agents[0], GoldRelated);
    var (s5, r1) := AssignIssue(s4, I(2));
    var (s6, r2) := AssignIssue(s5, I(2));
  }

  /** Resolving an already resolved issue is not refused: it frees the agent
      although the agent is still working on the issue it was promoted to. */
  lemma ResolvingTwiceFreesBusyAgent()
    ensures
      var (s1, _) := CreateIssue(Initial, "T1", InsuranceRelated, "s", "d", "e");
      var (s2, _) := CreateIssue(s1, "T2", InsuranceRelated, "s", "d", "e");
      var (s3, _) := AddAgent(s2, "a", "n", [InsuranceRelated]);
      var (s4, _) := AssignIssue(s3, I(1));
      var (s5, _) := AssignIssue(s4, I(2));
      var (s6, r1) := ResolveIssue(s5, I(1), "done");
      var (s7, r2) := ResolveIssue(s6, I(1), "done again");
      && r1 == MarkedResolved(Some(I(2))) && s6.agents[0].currentIssue == Some(I(2))
      && r2 == MarkedResolved(None)
      && s7.agents[0].currentIssue.None?
      && s7.issues[1].status == InProgress && s7.issues[1].assignedAgent == Some(A(1))
  {
    var (s1, _) := CreateIssue(Initial, "T1", InsuranceRelated, "s", "d", "e");
    var (s2, _) := CreateIssue(s1, "T2", InsuranceRelated, "s", "d", "e");
    var (s3, _) := AddAgent(s2, "a", "n", [InsuranceRelated]);
    assert IsFreeExpert(s3.agents[0], InsuranceRelated);
    var (s4, _) := AssignIssue(s3, I(1));
    assert IsExpert(s4.agents[0], InsuranceRelated);
    var (s5, _) := AssignIssue(s4, I(2));
    assert s5.agents[0].waitlist == [I(2)] && s5.issues[0].assignedAgent == Some(A(1));
    var (s6, r1) := ResolveIssue(s5, I(1), "done");
    assert s6.agents[0].waitlist == [] && s6.issues[0].assignedAgent == Some(A(1));
    var (s7, r2) := ResolveIssue(s6, I(1), "done again");
  }
}

=== FILE: resolution_system.dfy ===
/** The assignment and waitlist protocol of src/CustomerIssueResolutionSystem.ts:
    one state holding both tables, and one transition function per public
    operation returning the new state and what the operation reports. */
module ResolutionSystem {
  import opened Optional
  import opened Sequences
  import opened Domain

  /** Both tables; each counter is the length of its table. */
  datatype System = System(issues: IssueTable, agents: AgentTable)

  const Initial := System([], [])

  /** What an operation reports on the console, as data. */
  datatype Report =
    | IssueNotFound
    | AlreadyAssigned(agent: AgentId)
    | Assigned(agent: AgentId)
    | Waitlisted(agent: AgentId)
    | NoExpert
    | NotAssigned
    | AgentNotFound(agent: AgentId)
    | MarkedResolved(promoted: Option<IssueId>)
    | StatusUpdated

  /** The agent lists the issue's type among its expertise. */
  predicate IsExpert(a: Agent, t: IssueType) {
    t in a.expertiseTypes
  }

  /** An expert with no current issue. */
  predicate IsFreeExpert(a: Agent, t: IssueType) {
    IsExpert(a, t) && a.currentIssue.None?
  }

  /** `id` is stored and nobody is assigned to it. */
  predicate Unassigned(s: System, id: IssueId) {
    HasIssue(s.issues, id) && s.issues[id.n - 1].assignedAgent.None?
  }

  /** Some agent is an expert for type `t`; some agent is a free one. */
  predicate SomeExpert(s: System, t: IssueType) {
    exists j | 0 <= j < |s.agents| :: IsExpert(s.agents[j], t)
  }

  predicate SomeFreeExpert(s: System, t: IssueType) {
    exists j | 0 <= j < |s.agents| :: IsFreeExpert(s.agents[j], t)
  }

  /** The issue is handed to agent `a`. */
  function StartWork(i: Issue, a: AgentId): Issue {
    i.(assignedAgent := Some(a), status := InProgress)
  }

  /** The agent starts on `id` and records it in its history. */
  function TakeOn(a: Agent, id: IssueId): Agent {
    a.(currentIssue := Some(id), issuesWorkedOn := a.issuesWorkedOn + [id])
  }

  /** Stored issue k goes to stored agent j: the step shared by assignment and
      waitlist promotion. Its effect on the agents is stated by
      `ResolutionInvariants.HandOverExtendsHistory`, and on the issue by
      `ResolutionInvariants.HandOverKeepsOpenIffUnassigned`. */
  function HandOver(s: System, k: nat, j: nat): System
    requires k < |s.issues| && j < |s.agents|
  {
    System(s.issues[k := StartWork(s.issues[k], s.agents[j].id)], s.agents[j := TakeOn(s.agents[j], s.issues[k].id)])
  }

  /** The first half of a resolve: issue k is marked resolved with `text`, and its
      agent j is freed and loses the head of its waitlist, if any. Its effect is
      stated by the contract of `ResolveIssue` (through
      `ResolveIsReleaseThenPromotion`) and by
      `ResolutionInvariants.ReleaseKeepsOpenIffUnassigned`. */
  function Release(s: System, k: nat, j: nat, text: string): System
    requires k < |s.issues| && j < |s.agents|
  {
    var agent := s.agents[j].(currentIssue := None);
    var agent' := if |agent.waitlist| == 0 then agent else agent.(waitlist := agent.waitlist[1..]);
    System(s.issues[k := s.issues[k].(status := Resolved, resolution := Some(text))], s.agents[j := agent'])
  }

  /** Stores a fresh open issue under the next counter value. */
  function CreateIssue(s: System, transactionId: string, issueType: IssueType,
                       subject: string, description: string, email: string): (r: (System, IssueId))
    ensures r.1 == I(|s.issues| + 1) && !HasIssue(s.issues, r.1)
    ensures r.0.agents == s.agents
    ensures |r.0.issues| == |s.issues| + 1 && r.0.issues[..|s.issues|] == s.issues
    ensures var x := r.0.issues[|s.issues|];
      && x.id == r.1
      && x.status == Open && x.assignedAgent.None? && x.resolution.None?
      && x.transactionId == transactionId && x.issueType == issueType
      && x.subject == subject && x.description == description && x.customerEmail == email
  {
    var id := I(|s.issues| + 1);
    (s.(issues := s.issues + [NewIssue(id, transactionId, issueType, subject, description, email)]), id)
  }

  /** Stores a fresh idle agent under the next counter value. */
  function AddAgent(s: System, email: string, name: string, expertise: seq<IssueType>): (r: (System, AgentId))
    ensures r.1 == A(|s.agents| + 1) && !HasAgent(s.agents, r.1)
    ensures r.0.issues == s.issues
    ensures |r.0.agents| == |s.agents| + 1 && r.0.agents[..|s.agents|] == s.agents
    ensures var x := r.0.agents[|s.agents|];
      && x.id == r.1 && x.email == email && x.name == name && x.expertiseTypes == expertise
      && x.currentIssue.None? && x.waitlist == [] && x.issuesWorkedOn == []
  {
    var id := A(|s.agents| + 1);
    (s.(agents := s.agents + [NewAgent(id, email, name, expertise)]), id)
  }

  /** Hands an unassigned issue to the first free expert in table order; when
      every expert is busy, queues it on the first expert instead. */
  function AssignIssue(s: System, id: IssueId): (r: (System, Report))
    ensures !HasIssue(s.issues, id) ==> r == (s, IssueNotFound)
    ensures HasIssue(s.issues, id) && s.issues[id.n - 1].assignedAgent.Some? ==>
      r == (s, AlreadyAssigned(s.issues[id.n - 1].assignedAgent.value))
    ensures Unassigned(s, id) && !SomeExpert(s, s.issues[id.n - 1].issueType) ==> r == (s, NoExpert)
    ensures r.1.Assigned? <==> Unassigned(s, id) && SomeFreeExpert(s, s.issues[id.n - 1].issueType)
    ensures r.1.Waitlisted? <==>
      Unassigned(s, id) && SomeExpert(s, s.issues[id.n - 1].issueType) && !SomeFreeExpert(s, s.issues[id.n - 1].issueType)
    ensures r.1.Assigned? ==>
      var k, j := id.n - 1, r.1.agent.n - 1;
      && HasAgent(s.agents, r.1.agent)
      && IsFreeExpert(s.agents[j], s.issues[k].issueType)
      && (forall i | 0 <= i < j :: !IsFreeExpert(s.agents[i], s.issues[k].issueType))
      && r.0.issues == s.issues[k := StartWork(s.issues[k], r.1.agent)]
      && r.0.agents == s.agents[j := TakeOn(s.agents[j], id)]
    ensures r.1.Waitlisted? ==>
      var k, j := id.n - 1, r.1.agent.n - 1;
      && HasAgent(s.agents, r.1.agent)
      && IsExpert(s.agents[j], s.issues[k].issueType)
      && (forall i | 0 <= i < j :: !IsExpert(s.agents[i], s.issues[k].issueType))
      && r.0.issues == s.issues
      && r.0.agents == s.agents[j := s.agents[j].(waitlist := s.agents[j].waitlist + [id])]
  {
    match IssueSlot(s.issues, id)
    case None => (s, IssueNotFound)
    case Some(k) =>
      var issue := s.issues[k];
      if issue.assignedAgent.Some? then (s, AlreadyAssigned(issue.assignedAgent.value))
      else
        var t := issue.issueType;
        match FirstIndex(s.agents, (a: Agent) => IsFreeExpert(a, t))
        case Some(j) => (HandOver(s, k, j), Assigned(s.agents[j].id))
        case None =>
          match FirstIndex(s.agents, (a: Agent) => IsExpert(a, t))
          case Some(j) =>
            var agent := s.agents[j];
            (s.(agents := s.agents[j := agent.(waitlist := agent.waitlist + [id])]), Waitlisted(agent.id))
          case None => (s, NoExpert)
  }

  /** Assignment either hands the issue over to the first free expert, queues it
      on the first expert, or changes nothing. */
  lemma AssignIsHandOverOrEnqueue(s: System, id: IssueId)
    ensures var (s', rep) := AssignIssue(s, id);
      && (rep.Assigned? ==> s' == HandOver(s, id.n - 1, rep.agent.n - 1))
      && (rep.Waitlisted? ==>
            var j := rep.agent.n - 1;
            s' == s.(agents := s.agents[j := s.agents[j].(waitlist := s.agents[j].waitlist + [id])]))
      && (!rep.Assigned? && !rep.Waitlisted? ==> s' == s)
  {
  }

  /** An issue matches when it agrees with every filter field that is present;
      an empty email is no constraint. */
  predicate Matches(f: IssueFilter, i: Issue) {
    && (f.email.None? || f.email.value == "" || i.customerEmail == f.email.value)
    && (f.issueType.None? || i.issueType == f.issueType.value)
    && (f.status.None? || i.status == f.status.value)
    && (f.agentId.None? || i.assignedAgent == f.agentId)
  }

  /** The filter that constrains nothing. */
  predicate IsWildcard(f: IssueFilter) {
    && (f.email.None? || f.email.value == "")
    && f.issueType.None? && f.status.None? && f.agentId.None?
  }

  /** The matching issues of `issues`, collected front to back as the loop pushes them. */
  function SelectMatching(issues: seq<Issue>, f: IssueFilter): (r: seq<Issue>)
    ensures IsSubsequence(r, issues)
    ensures forall x :: x in r <==> x in issues && Matches(f, x)
    decreases |issues|
  {
    if |issues| == 0 then []
    else
      var init, last := issues[..|issues| - 1], issues[|issues| - 1];
      assert issues == init + [last];
      var rest := SelectMatching(init, f);
      if Matches(f, last) then
        assert (rest + [last])[..|rest|] == rest;
        rest + [last]
      else rest
  }

  /** `getIssues`: exactly the stored issues that match `f`, in table order. */
  function GetIssues(s: System, f: IssueFilter): (r: seq<Issue>)
    ensures IsSubsequence(r, s.issues)
    ensures forall x :: x in r <==> x in s.issues && Matches(f, x)
  {
    SelectMatching(s.issues, f)
  }

  /** One pass of the selection loop: the last issue is kept exactly when it matches. */
  lemma SelectMatchingStep(issues: seq<Issue>, f: IssueFilter)
    requires |issues| > 0
    ensures SelectMatching(issues, f) ==
      SelectMatching(issues[..|issues| - 1], f) + (if Matches(f, issues[|issues| - 1]) then [issues[|issues| - 1]] else [])
  {
  }

  /** The selection over a three-issue table, spelled out issue by issue. */
  lemma SelectMatchingThree(a: Issue, b: Issue, c: Issue, f: IssueFilter)
    ensures SelectMatching([a, b, c], f) ==
      (if Matches(f, a) then [a] else []) + (if Matches(f, b) then [b] else []) + (if Matches(f, c) then [c] else [])
  {
    assert [a, b, c][..2] == [a, b] && [a, b][..1] == [a] && [a][..0] == [];
    SelectMatchingStep([a], f);
    SelectMatchingStep([a, b], f);
    SelectMatchingStep([a, b, c], f);
  }

  /** A filter that constrains nothing selects every issue, in order. */
  lemma {:induction false} WildcardSelectsAll(issues: seq<Issue>, f: IssueFilter)
    requires IsWildcard(f)
    ensures SelectMatching(issues, f) == issues
    decreases |issues|
  {
    if |issues| > 0 {
      var init, last := issues[..|issues| - 1], issues[|issues| - 1];
      WildcardSelectsAll(init, f);
      SelectMatchingStep(issues, f);
      assert Matches(f, last);
      assert issues == init + [last];
    }
  }

  /** `getIssues({})` lists the whole table. */
  lemma GetIssuesWildcard(s: System, f: IssueFilter)
    requires IsWildcard(f)
    ensures GetIssues(s, f) == s.issues
  {
    WildcardSelectsAll(s.issues, f);
  }

  /** Manual overwrite of an issue's status, and of its resolution when a
      non-empty one is given; agents are not touched. */
  function UpdateIssue(s: System, id: IssueId, status: IssueStatus, resolution: Option<string>): (r: (System, Report))
    ensures !HasIssue(s.issues, id) ==> r == (s, IssueNotFound)
    ensures HasIssue(s.issues, id) ==>
      var k := id.n - 1;
      && r.1 == StatusUpdated
      && r.0.agents == s.agents
      && |r.0.issues| == |s.issues|
      && r.0.issues == s.issues[k := r.0.issues[k]]
      && SameIssueDetails(s.issues[k], r.0.issues[k])
      && r.0.issues[k].assignedAgent == s.issues[k].assignedAgent
      && r.0.issues[k].status == status
      && r.0.issues[k].resolution ==
           (if resolution.Some? && resolution.value != "" then resolution else s.issues[k].resolution)
  {
    match IssueSlot(s.issues, id)
    case None => (s, IssueNotFound)
    case Some(k) =>
      var issue := s.issues[k].(status := status);
      var issue' := if resolution.Some? && resolution.value != "" then issue.(resolution := resolution) else issue;
      (s.(issues := s.issues[k := issue']), StatusUpdated)
  }

  /** The waitlist entry that a successful resolve by `agent` promotes: the head,
      provided it names a stored issue. */
  function NextPromotion(s: System, agent: Agent): Option<IssueId> {
    if |agent.waitlist| > 0 && HasIssue(s.issues, agent.waitlist[0]) then Some(agent.waitlist[0]) else None
  }

  /** Marks an assigned issue resolved, frees its agent, and promotes at most the
      head of that agent's waitlist. The issue's status is not checked. */
  function ResolveIssue(s: System, id: IssueId, text: string): (r: (System, Report))
    ensures !HasIssue(s.issues, id) ==> r == (s, IssueNotFound)
    ensures Unassigned(s, id) ==> r == (s, NotAssigned)
    ensures HasIssue(s.issues, id) && s.issues[id.n - 1].assignedAgent.Some?
            && !HasAgent(s.agents, s.issues[id.n - 1].assignedAgent.value) ==>
      r == (s, AgentNotFound(s.issues[id.n - 1].assignedAgent.value))
    ensures r.1.MarkedResolved? <==>
      && HasIssue(s.issues, id) && s.issues[id.n - 1].assignedAgent.Some?
      && HasAgent(s.agents, s.issues[id.n - 1].assignedAgent.value)
    // the agent: cleared, then at most the head of its queue promoted
    ensures r.1.MarkedResolved? ==>
      var a := s.issues[id.n - 1].assignedAgent.value;
      var agent, p := s.agents[a.n - 1], r.1.promoted;
      && p == NextPromotion(s, agent)
      && |r.0.agents| == |s.agents|
      && r.0.agents == s.agents[a.n - 1 := r.0.agents[a.n - 1]]
      && SameAgentProfile(agent, r.0.agents[a.n - 1])
      && r.0.agents[a.n - 1].waitlist == (if |agent.waitlist| > 0 then agent.waitlist[1..] else [])
      && r.0.agents[a.n - 1].currentIssue == p
      && r.0.agents[a.n - 1].issuesWorkedOn == agent.issuesWorkedOn + (if p.Some? then [p.value] else [])
    // the issues: the resolved one, the promoted one, nothing else
    ensures r.1.MarkedResolved? ==>
      var k, a, p := id.n - 1, s.issues[id.n - 1].assignedAgent.value, r.1.promoted;
      && |r.0.issues| == |s.issues|
      && SameIssueDetails(s.issues[k], r.0.issues[k])
      && r.0.issues[k].assignedAgent == Some(a)
      && r.0.issues[k].resolution == Some(text)
      && r.0.issues[k].status == (if p == Some(id) then InProgress else Resolved)
      && (if p.Some? && p.value != id then
            && r.0.issues[p.value.n - 1] == StartWork(s.issues[p.value.n - 1], a)
            && r.0.issues == s.issues[k := r.0.issues[k]][p.value.n - 1 := r.0.issues[p.value.n - 1]]
          else r.0.issues == s.issues[k := r.0.issues[k]])
  {
    match IssueSlot(s.issues, id)
    case None => (s, IssueNotFound)
    case Some(k) =>
      match s.issues[k].assignedAgent
      case None => (s, NotAssigned)
      case Some(aid) =>
        match AgentSlot(s.agents, aid)
        case None => (s, AgentNotFound(aid))
        case Some(j) =>
          // the resolved record is written back before the waitlist head is
          // looked up, so a head equal to `id` sees the resolved record
          var mid := Release(s, k, j, text);
          var waitlist := s.agents[j].waitlist;
          if |waitlist| == 0 then (mid, MarkedResolved(None))
          else
            match IssueSlot(mid.issues, waitlist[0])
            case None => (mid, MarkedResolved(None))
            case Some(m) => (HandOver(mid, m, j), MarkedResolved(Some(waitlist[0])))
  }

  /** A successful resolve is a release followed by at most one hand-over, of
      the former head of the agent's waitlist to that same agent. */
  lemma ResolveIsReleaseThenPromotion(s: System, id: IssueId, text: string)
    requires HasIssue(s.issues, id) && s.issues[id.n - 1].assignedAgent.Some?
    requires HasAgent(s.agents, s.issues[id.n - 1].assignedAgent.value)
    ensures var j := s.issues[id.n - 1].assignedAgent.value.n - 1;
      ResolveIssue(s, id, text).1 == MarkedResolved(NextPromotion(s, s.agents[j]))
    ensures var k, j := id.n - 1, s.issues[id.n - 1].assignedAgent.value.n - 1;
      NextPromotion(s, s.agents[j]).None? ==> ResolveIssue(s, id, text).0 == Release(s, k, j, text)
    ensures var k, j := id.n - 1, s.issues[id.n - 1].assignedAgent.value.n - 1;
      var p := NextPromotion(s, s.agents[j]);
      p.Some? ==> ResolveIssue(s, id, text).0 == HandOver(Release(s, k, j, text), p.value.n - 1, j)
  {
  }

  /** `viewAgentsWorkHistory`: every agent's id mapped to its history. */
  function WorkHistory(s: System): (h: map<AgentId, seq<IssueId>>)
    ensures forall a :: a in h <==> HasAgent(s.agents, a)
    ensures forall j | 0 <= j < |s.agents| :: s.agents[j].id in h && h[s.agents[j].id] == s.agents[j].issuesWorkedOn
  {
    HistoryOf(s.agents)
  }

  /** The record the loop over the agent table has built after visiting `t`,
      one entry per agent in table order. */
  function HistoryOf(t: AgentTable): (h: map<AgentId, seq<IssueId>>)
    ensures forall a :: a in h <==> HasAgent(t, a)
    ensures forall j | 0 <= j < |t| :: t[j].id in h && h[t[j].id] == t[j].issuesWorkedOn
    decreases |t|
  {
    if |t| == 0 then map[]
    else HistoryOf(t[..|t| - 1])[t[|t| - 1].id := t[|t| - 1].issuesWorkedOn]
  }
}

=== FILE: sequences.dfy ===
/** Generic facts about sequences used by the stores and the coordinator. */
module Sequences {
  import opened Optional

  /** The position of the first element of `s` that satisfies `p`: what
      `s.filter(p)[0]` picks in JavaScript, or `None` when the filter is empty. */
  function FirstIndex<T>(s: seq<T>, p: T -> bool): (r: Option<nat>)
    ensures r.Some? ==> r.value < |s| && p(s[r.value])
    ensures r.Some? ==> forall i | 0 <= i < r.value :: !p(s[i])
    ensures r.None? <==> forall i | 0 <= i < |s| :: !p(s[i])
  {
    if |s| == 0 then None
    else if p(s[0]) then Some(0)
    else match FirstIndex(s[1..], p)
      case None => None
      case Some(k) => Some(k + 1)
  }

  /** `a` is obtained from `b` by deleting elements, so it keeps `b`'s order. */
  predicate IsSubsequence<T(==)>(a: seq<T>, b: seq<T>)
    decreases |b|
  {
    || |a| == 0
    || (&& |b| > 0
        && (|| (a[|a| - 1] == b[|b| - 1] && IsSubsequence(a[..|a| - 1], b[..|b| - 1]))
            || IsSubsequence(a, b[..|b| - 1])))
  }

  /** `a` is a prefix of `b`. */
  predicate IsPrefix<T(==)>(a: seq<T>, b: seq<T>) {
    |a| <= |b| && b[..|a|] == a
  }
}
